=== FILE: README.md ===
# Employee sort benchmark, modelled in Dafny

The benchmark reads employee records from CSV files. It sorts them with one of
four algorithms and writes the sorted records back out as CSV. The algorithms
are bubble sort, heap sort, merge sort and `std::sort`, and `sortChoice`
picks one. Records are compared by `Employee::operator<`: department, then
full name, then hire date, then position.

This project models that core of `main.cpp` and proves it correct:

- `employee.dfy` (module `Employees`): the record, a datatype of four strings.
  It holds the `std::string` order and `operator<` with its derived
  operators, and proves that `<` is a strict total order and `<=` a total
  order.
- `sort_spec.dfy` (module `SortSpec`): what the sorts must produce.
  - `SortSeq` is the sorted permutation of a sequence. It is unique, because
    `<` ties only identical records.
  - `MergeFrom` is the merge of two runs, taking the left element on ties.
  - Also here: the max-heap order that heap sort keeps, and the frame
    predicate "nothing outside `[lo..hi)` changed".
  - The lemmas about these definitions.
- `sorts.dfy` (module `Sorts`): the sorts themselves, in place over an
  `array<Employee>`.
  - The loops and recursion follow the code: `bubbleSort`, `heapify`,
    `heapSort`, `merge` and `mergeSort`.
  - `std::sort` is modelled by its contract.
  - Every sort is proved to leave a sorted permutation of its input.
- `csv.dfy` (module `Csv`): `std::getline` on a stream that is modelled by
  its unread text.
  - The row split of `read_csv` and the row join of `write_csv`.
  - The two file loops, over the text of a file.
  - Proofs that a row survives being written and read back exactly when no
    field contains `,`. A whole file survives when, in addition, no field
    contains a line break.
- `benchmark.dfy` (module `Benchmark`): the `sortChoice` branch of `main`, and
  one round of its loop over the data files, modelled as text in and text out.

On an empty vector the code itself treats sorting as a no-op everywhere
except in bubble sort:
- neither loop of `heapSort` runs for `n == 0` (main.cpp:121-122);
- `mergeSort` returns at once when `left >= right` (main.cpp:154), as it does
  for the call `(0, -1)`;
- only `bubbleSort`'s `size_t` bound `n - 1` wraps (main.cpp:87), so its
  first pass runs.

See "## Findings". The model uses the corrected guard and keeps the code's
behaviour in a separate member.

## Model

| member | source | states |
|---|---|---|
| Employees.StrLess | main.cpp:21-30 | defines `std::string` less-than (character by character, a proper prefix first); its order properties are in `StrLessIrreflexive`, `StrLessTransitive` and `StrLessConnected`, used by the rows below |
| Employees.Less | main.cpp:20-31 | defines `operator<`, branch for branch; its contract is carried by `LessIsKeyOrder` and `LessIsStrictTotalOrder` |
| Employees.Greater | main.cpp:33-35 | defines `operator>` as `other < *this`; its meaning is stated by `DerivedOperators` |
| Employees.LessEq | main.cpp:37-39 | defines `operator<=` as `!(other < *this)`; stated by `DerivedOperators` and `LessEqIsTotalOrder` |
| Employees.GreaterEq | main.cpp:41-43 | defines `operator>=` as `!(*this < other)`; stated by `DerivedOperators` |
| Employees.LessIsKeyOrder | main.cpp:20-31 | `a < b` holds exactly when the key (department, fullName, hireDate, position) of `a` is lexicographically below that of `b` |
| Employees.LessIsStrictTotalOrder | main.cpp:20-31 | `<` is irreflexive, asymmetric and transitive, and any two different records are ordered one way or the other |
| Employees.DerivedOperators | main.cpp:33-43 | `a > b` means `a != b` and not `a < b`; `a <= b` means `a < b` or `a == b`; `a >= b` means `b < a` or `a == b` |
| Employees.LessEqIsTotalOrder | main.cpp:37-39 | `<=` is reflexive, antisymmetric, transitive and total |
| SortSpec.SortSeq | main.cpp:198 | the reference result of every sort: sorted by `<=` and a permutation of the input |
| SortSpec.SortedPermutationUnique | main.cpp:20-31 | two sorted sequences with the same elements are equal, because `<` ties only equal records |
| SortSpec.IsSortSeq | main.cpp:191-199 | any sorted permutation of `s` is `SortSeq(s)`, so all four algorithms give the identical sequence |
| SortSpec.SortSeqIdempotent | main.cpp:198 | the sorted permutation of an already sorted sequence is that sequence itself |
| SortSpec.LargestBubbledUp | main.cpp:87-92 | a pass that puts a largest element of `[0..m)` at `m - 1`, keeps the elements and leaves `[m..n)` alone extends the sorted suffix to start at `m - 1`, with every element before it `<=` every element in it |
| SortSpec.SiftDownStep | main.cpp:109-111 | swapping `i` with its larger child `largest` restores heap order at `i` within the subtree being repaired and leaves the heap broken at most at `largest`, with that node's children bounded by its new parent |
| SortSpec.SubtreePremiseIsLocal | main.cpp:102-105 | `heapify(arr, 7, 1)`'s premise holds for every array, however nodes 0, 2, 5 and 6 are ordered, because the nodes of subtree 1 other than 1 have no children inside the heap |
| SortSpec.SiftDownFrame | main.cpp:109-111 | the swap of `i` with its child `largest` and the recursive call on `largest`'s subtree change nothing outside `i`'s subtree |
| SortSpec.SubtreeNested | main.cpp:103-105 | a node in the subtree of a node in `i`'s subtree (children `2i+1`, `2i+2`) is itself in `i`'s subtree |
| SortSpec.HeapAboveGivesSubtrees | main.cpp:121 | in the first loop of `heapSort`, heap order at every parent from `i + 1` on means both subtrees below `i` are max-heaps, which is what `heapify(arr, n, i)` needs |
| SortSpec.SubtreeExtendsHeap | main.cpp:121 | once `heapify(arr, n, i)` has made `i`'s subtree a max-heap without touching any other node, heap order holds at every parent from `i` on |
| SortSpec.RootSwappedOut | main.cpp:123-124 | after the root is swapped with slot `i`, both subtrees below the root of the shrunk heap `[0..i)` are still max-heaps, which is what `heapify(arr, i, 0)` needs |
| SortSpec.RootSubtreeHeap | main.cpp:124 | a max-heap on the subtree of the root is heap order on the whole of `[0..n)` |
| SortSpec.HeapRootIsMax | main.cpp:122-123 | in a max-heap over `[0..n)` the root is `>=` every element of the heap |
| SortSpec.RootMovedToEnd | main.cpp:122-125 | swapping the root to slot `i` and then re-establishing the heap on `[0..i)` (over the same elements, with `[i..n)` untouched) extends the sorted suffix to start at `i`, with every heap element `<=` every element of the suffix |
| SortSpec.MergeFrom | main.cpp:139-144 | defines what the three loops of `merge` write once `i` and `j` elements are taken; its length is in its own ensures, and its contract is carried by `MergeIsPermutation`, `MergeSorted`, `MergeStepLeft` and `MergeStepRight` |
| SortSpec.MergeIsPermutation | main.cpp:135-145 | the merge of two runs has exactly the elements of both runs |
| SortSpec.MergeSorted | main.cpp:139-144 | the merge of two sorted runs is sorted |
| SortSpec.MergeStepLeft | main.cpp:140 | when the left head is `<=` the right head (or the right run is used up), the next merged element is the left head: ties take the left element |
| SortSpec.MergeStepRight | main.cpp:141 | when the left head is not `<=` the right head (or the left run is used up), the next merged element is the right head |
| SortSpec.MergeWritten | main.cpp:139-144 | the three loops of `merge` together write the whole merged result `whole` into the slots from `lo` on, as many as it has, and change nothing else |
| SortSpec.MergePermutes | main.cpp:153-159 | replacing `[left..right]` by a permutation of its two halves keeps the multiset of the whole array |
| Sorts.Swap | main.cpp:90 | `std::swap` exchanges two slots, leaves every other slot alone and keeps the elements |
| Sorts.BubbleSort | main.cpp:85-94 | the array ends sorted by `<=` and is a permutation of its input, including when it is empty |
| Sorts.BubblePass | main.cpp:88-92 | one inner pass over `[0..m)` carries a largest element to `m - 1`, keeps the elements and moves nothing from `m` on |
| Sorts.OuterBoundAsWritten | main.cpp:87 | defines the outer bound `n - 1` as the code computes it, a `size_t` subtraction modulo 2^64; its contract is carried by `EmptyBubbleSortReadsPastEnd` and `BubbleGuardAgrees` |
| Sorts.InnerBoundAsWritten | main.cpp:88 | defines the inner bound `n - i - 1` as the code computes it, also modulo 2^64; its contract is carried by `EmptyBubbleSortReadsPastEnd` and `BubbleGuardAgrees` |
| Sorts.BubbleGuardAgrees | main.cpp:87-88 | on a non-empty vector, the `size_t` tests `i < n - 1` and `j < n - i - 1` are exactly `i + 1 < n` and `j < n - i - 1` in integers |
| Sorts.EmptyBubbleSortReadsPastEnd | main.cpp:86-89 | on an empty vector, `n - 1` and `n - i - 1` wrap to 2^64 - 1, so the first pass starts and compares `arr[0]` with `arr[1]`, neither of which exists |
| Sorts.Heapify | main.cpp:102-113 | called with `root == i`: if the subtrees rooted at `2i+1` and `2i+2` are max-heaps (heap order at every parent of `i`'s subtree except `i`), then afterwards the subtree rooted at `i` is a max-heap, the elements are the same, and no node outside `i`'s subtree, before `i` or from `n` on has moved; the ghost `root` generalises this for the recursive call, where `i` lies below `root` and its children do not exceed its parent |
| Sorts.Largest | main.cpp:104-108 | `largest` is `i` or a child inside the heap, holds the greatest of the three, and replaces `i` (or the left child) only when strictly greater |
| Sorts.BuildHeap | main.cpp:121 | after sifting down every inner node from `n/2 - 1` back to the root, the whole array is a max-heap with the same elements |
| Sorts.HeapSort | main.cpp:119-126 | the array ends sorted and a permutation of its input, for every length including 0 and 1 |
| Sorts.Interleave | main.cpp:138-142 | the first loop of `merge` writes the start of the merged result from `left` on, stops when one run is used up, and changes nothing else |
| Sorts.Drain | main.cpp:143-144 | a copy-the-rest loop writes what is left of a run in order from `k` on and changes nothing else |
| Sorts.Merge | main.cpp:135-145 | `a[left..right]` becomes the merge of the old `a[left..mid]` and `a[mid+1..right]`, and nothing outside that range changes |
| Sorts.HalvesMergedSorted | main.cpp:156-158 | merging the two sorted halves leaves `[left..right]` sorted |
| Sorts.MergeSort | main.cpp:153-159 | `[left..right]` ends sorted, the array keeps its elements, and nothing outside `[left..right]` changes; with `left >= right`, as in `(0, -1)` on an empty vector, nothing changes at all |
| Sorts.LibrarySort | main.cpp:198 | `std::sort` leaves the array sorted and a permutation of its input |
| Benchmark.Dispatch | main.cpp:191-199 | each recognised `sortChoice` leaves `SortSeq` of the input, the same for all four; any other choice leaves the records unchanged |
| Benchmark.SortFile | main.cpp:187-206 | the text written for one data file is the CSV text of the sorted records read from it, or of the unsorted records for an unrecognised choice |
| Benchmark.SortedFileReadsBack | main.cpp:187-206 | reading the written `_sorted.csv` text back gives exactly the sorted records |
| Benchmark.SortingTwiceChangesNothing | main.cpp:186-207 | running the benchmark on its own output writes the same text again |
| Csv.GetLine | main.cpp:59-62 | `getline` succeeds exactly when the stream is good and has something left; it reads up to the first delimiter, which it consumes, or else to the end; and on failure it reads nothing |
| Csv.ParseRow | main.cpp:57-63 | the record read from a line is made of its first four `,`-separated pieces; missing fields stay empty and extra pieces are dropped |
| Csv.FormatRow | main.cpp:77 | defines the line written for a record, its four fields joined by `,`; its contract is carried by `FormatRowPieces` and `RowRoundTrip` |
| Csv.FormatRowPieces | main.cpp:77 | the pieces of a written row are the pieces of its four fields, in order |
| Csv.SplitJoin | main.cpp:77 | splitting `a`, a delimiter and `b` gives the pieces of `a` followed by the pieces of `b` |
| Csv.SplitSingle | main.cpp:59-62 | a string splits into itself alone exactly when it has no delimiter |
| Csv.RowRoundTrip | main.cpp:57-77 | reading back the row written for `e` gives `e` exactly when no field of `e` contains `,` |
| Csv.CsvRecords | main.cpp:51-66 | defines what `read_csv` returns for a file holding `text`: the first line is skipped and every further line becomes a record; its contract is carried by `ReadCsv`, `FileRoundTrip` and `RecordsClean` |
| Csv.ReadCsv | main.cpp:51-66 | `read_csv` skips the first line and returns one record per further line, in order |
| Csv.RowsText | main.cpp:76-77 | defines the rows `write_csv` writes, one `FormatRow` line per record, each ended by `\n`; part of `CsvText`, carried by `RowsLines` and `WriteCsv` |
| Csv.CsvText | main.cpp:73-79 | defines what `write_csv` writes: the header line `Header` (`FullName,Department,Position,HireDate`, main.cpp:75) and `\n`, then the rows; its contract is carried by `WriteCsv` and `FileRoundTrip` |
| Csv.WriteCsv | main.cpp:73-79 | `write_csv` writes the header line, then one `,`-joined line per record, each ended by `\n` |
| Csv.Lines | main.cpp:55-56 | defines the lines `while (getline(file, line))` delivers, in order; its contract is carried by `ReadCsv`, `LinesHaveNoBreak` and `RowsLines` |
| Csv.RowsLines | main.cpp:76-77 | the lines read back from the written rows are the written rows, when no field holds a line break |
| Csv.FileRoundTrip | main.cpp:51-79 | reading back what `write_csv` wrote gives the same records when no field holds `,` or a line break |
| Csv.LinesHaveNoBreak | main.cpp:56 | no line delivered by `getline(file, line)` contains `\n` |
| Csv.PiecesAvoid | main.cpp:59-62 | the fields split from a line without some character do not contain it either |
| Csv.RecordsClean | main.cpp:56-63 | no field of a record returned by `read_csv` contains `,` or a line break |

## Left out

- File and console I/O are not modelled. This covers the list of data file names, opening, reading and writing the files, and the `_sorted.csv` name. A file is modelled by its text: `SortFile` takes the text read and returns the text written. A file that cannot be opened (which the code reads as empty) is not modelled.
- The `std::cout` reports and the timing with `std::clock` and a `double` are not modelled: a clock and floating point, with no effect on the records.
- Sorts.LibrarySort: only the contract of `std::sort` is modelled, a sorted permutation. Its body writes that permutation and does not stand for introsort.
- Integer widths apart from the bubble sort bound are not modelled. The `int` indices of `heapify`, `heapSort`, `merge` and `mergeSort` are unbounded integers. The model is faithful only for vectors of fewer than about 2^30 records. In `heapify` (main.cpp:105), `int r = 2 * i + 2` overflows `int` once `i >= 2^30 - 1`, and `int l = 2 * i + 1` once `i >= 2^30` (at `i = 2^30 - 1`, `l` is exactly `INT_MAX`). That happens before the `l < n` and `r < n` tests, and the sift-down reaches such an `i` on vectors of about 2^30 records or more. The `size_t` to `int` conversion of `employees.size() - 1` is taken to give `-1` for an empty vector, as it does on the usual platforms.
- Sorts.EmptyBubbleSortReadsPastEnd: states only the wrapped bounds and the missing slots. The out-of-bounds reads themselves are undefined behaviour and are not executed.
- Stability is not stated as a separate property. `<` ties only identical records, so every sorted permutation of an input is the same sequence (`SortedPermutationUnique`), and stability adds nothing. The left-first rule of `merge` is still stated, in `MergeStepLeft`.
- Csv.FileRoundTrip: proves only that clean records survive a write and a read. It does not prove the converse, that a record with `,` or `\n` in a field fails to survive; for a single row that converse is part of `RowRoundTrip`.
- The vector is modelled by a fixed-length array, and the sorts never change its length.

## Findings

| source | as written | input that shows it | evidently intended | confidence | as-written member | corrected member |
|---|---|---|---|---|---|---|
| main.cpp:87 | `for (size_t i = 0; i < n - 1; ++i)` with `n` of type `size_t`: for `n == 0`, `n - 1` wraps to 2^64 - 1, the first pass runs, and `arr[j] > arr[j + 1]` reads `arr[0]` and `arr[1]` of an empty vector | an empty vector (a data file holding only its header line) with `sortChoice == "bubble"` | no pass for an empty vector, as for the other sorts: the guard `i + 1 < n` | not executed | Sorts.EmptyBubbleSortReadsPastEnd | Sorts.BubbleSort |

=== FILE: benchmark.dfy ===
/**
 * The benchmark driver: the `sortChoice` branch of `main` and one round of
 * its loop over the data files, without the clock and the console output.
 */
module Benchmark {
  import opened Employees
  import opened SortSpec
  import opened Sorts
  import opened Csv

  /** The `sortChoice` values `main` has a branch for. */
  predicate Recognised(sortChoice: string)
  {
    sortChoice == "bubble" || sortChoice == "heap" || sortChoice == "merge" || sortChoice == "standart"
  }

  /**
   * The `sortChoice` branch: run the chosen sort on the records. Every
   * recognised choice leaves the one sorted permutation of the input, so
   * all four give the same result; any other choice leaves the records as
   * they were. `mergeSort` gets `size() - 1` as its right end, which is
   * `-1` for an empty vector.
   */
  method Dispatch(a: array<Employee>, sortChoice: string)
    modifies a
    ensures Recognised(sortChoice) ==> a[..] == SortSeq(old(a[..]))
    ensures !Recognised(sortChoice) ==> a[..] == old(a[..])
  {
    if sortChoice == "bubble" {
      BubbleSort(a);
    } else if sortChoice == "heap" {
      HeapSort(a);
    } else if sortChoice == "merge" {
      MergeSort(a, 0, a.Length - 1);
      assert a[..] == a[0..a.Length];
    } else if sortChoice == "standart" {
      LibrarySort(a);
    }
    if Recognised(sortChoice) {
      IsSortSeq(old(a[..]), a[..]);
    }
  }

  /**
   * One round of `main`'s loop: read the records of the file holding
   * `text`, sort them with `sortChoice`, and return the text written to the
   * `_sorted.csv` file.
   */
  method SortFile(text: string, sortChoice: string) returns (out: string)
    ensures Recognised(sortChoice) ==> out == CsvText(SortSeq(CsvRecords(text)))
    ensures !Recognised(sortChoice) ==> out == CsvText(CsvRecords(text))
  {
    var employees := ReadCsv(text);
    var a := NewArray(employees);
    Dispatch(a, sortChoice);
    out := WriteCsv(a[..]);
  }

  /** A fresh array holding `s`, as the vector `read_csv` returns. */
  method NewArray(s: seq<Employee>) returns (a: array<Employee>)
    ensures fresh(a) && a[..] == s
  {
    a := new Employee[|s|](k requires 0 <= k < |s| => s[k]);
  }

  /**
   * The sorted file, read back, gives exactly the sorted records of the
   * input file: fields read from a file never hold a `,` or a line break,
   * so they survive the write.
   */
  lemma SortedFileReadsBack(text: string)
    ensures CsvRecords(CsvText(SortSeq(CsvRecords(text)))) == SortSeq(CsvRecords(text))
  {
    var records := CsvRecords(text);
    var sorted := SortSeq(records);
    RecordsClean(text);
    forall k | 0 <= k < |sorted| ensures Clean(sorted[k]) {
      assert sorted[k] in multiset(records);
      var m :| 0 <= m < |records| && records[m] == sorted[k];
    }
    FileRoundTrip(sorted);
  }

  /** Sorting a file the benchmark has already sorted writes the same text again. */
  lemma SortingTwiceChangesNothing(text: string)
    ensures CsvText(SortSeq(CsvRecords(CsvText(SortSeq(CsvRecords(text)))))) == CsvText(SortSeq(CsvRecords(text)))
  {
    SortedFileReadsBack(text);
    SortSeqIdempotent(SortSeq(CsvRecords(text)));
  }
}

=== FILE: csv.dfy ===
/**
 * The employee CSV files: `std::getline` on a stream, the split of one line
 * into the four fields of a record (`read_csv`), the line written for a
 * record (`write_csv`), and the file-level loops around them. The files
 * themselves are modelled by their text; opening and closing them is not.
 */
module Csv {
  import opened Employees

  datatype Option<T> = None | Some(value: T)

  /** The result of one `std::getline` call: the text read, whether the call succeeded, the stream after it. */
  datatype Read = Read(field: string, ok: bool, rest: Option<string>)

  /** Position of the first `c` in `s`, or `|s|` when `s` has none. */
  function IndexOf(s: string, c: char): (k: nat)
    ensures k <= |s|
    ensures forall p :: 0 <= p < k ==> s[p] != c
    ensures k < |s| ==> s[k] == c
  {
    if s == [] then 0
    else if s[0] == c then 0
    else 1 + IndexOf(s[1..], c)
  }

  /** What is left to read: nothing once the stream has failed or reached its end. */
  function Size(stream: Option<string>): nat
  {
    if stream.None? then 0 else |stream.value| + 1
  }

  /**
   * `std::getline(in, field, delim)`. A stream is `Some(unread)` while it
   * is good and `None` once it has failed or hit its end. The call reads up
   * to the first `delim` and consumes it; with no `delim` left it reads to
   * the end and the stream reaches its end. It fails, reading nothing, when
   * the stream is already done or there is nothing left to read.
   */
  function GetLine(stream: Option<string>, delim: char): (r: Read)
    ensures r.ok <==> stream.Some? && stream.value != []
    ensures r.ok ==> Size(r.rest) < Size(stream)
    ensures !r.ok ==> r == Read("", false, None)
    ensures r.ok && r.rest.Some? ==> stream.value == r.field + [delim] + r.rest.value
    ensures r.ok && r.rest.None? ==> stream.value == r.field
    ensures delim !in r.field
  {
    if stream.None? || stream.value == [] then Read("", false, None)
    else
      var s := stream.value;
      var k := IndexOf(s, delim);
      if k < |s| then
        assert s == s[..k] + [delim] + s[k + 1..];
        Read(s[..k], true, Some(s[k + 1..]))
      else
        assert s[..k] == s;
        Read(s, true, None)
  }

  /**
   * The split of one line in `read_csv`: four `getline(ss, field, ',')`
   * calls on a string stream over the line, into fresh empty strings, so a
   * field the stream no longer delivers stays empty and whatever follows
   * the fourth field is dropped.
   */
  function ParseRow(line: string): (e: Employee)
    ensures e == FirstFour(Split(line, ','))
  {
    var f1 := GetLine(Some(line), ',');
    var f2 := GetLine(f1.rest, ',');
    var f3 := GetLine(f2.rest, ',');
    var f4 := GetLine(f3.rest, ',');
    var p0 := Split(line, ',');
    FieldsAfterRead(Some(line), p0);
    FieldsAfterRead(f1.rest, Tail(p0));
    FieldsAfterRead(f2.rest, Tail(Tail(p0)));
    FieldsAfterRead(f3.rest, Tail(Tail(Tail(p0))));
    Employee(f1.field, f2.field, f3.field, f4.field)
  }

  /** The pieces after the first. */
  function Tail(pieces: seq<string>): seq<string>
  {
    if pieces == [] then [] else pieces[1..]
  }

  /** The line `write_csv` emits for `e`, without its `\n`: the four fields in declaration order, joined by `,`. */
  function FormatRow(e: Employee): string
  {
    e.fullName + "," + e.department + "," + e.position + "," + e.hireDate
  }

  /** The pieces of the line written for `e` are the pieces of its fields, in order. */
  lemma FormatRowPieces(e: Employee)
    ensures Split(FormatRow(e), ',') ==
      Split(e.fullName, ',') + Split(e.department, ',') + Split(e.position, ',') + Split(e.hireDate, ',')
  {
    var r3 := e.position + [','] + e.hireDate;
    var r2 := e.department + [','] + r3;
    assert FormatRow(e) == e.fullName + [','] + r2 by {
      Associate(e.fullName + [','] + e.department, e.position, e.hireDate);
      Associate(e.fullName, e.department, r3);
    }
    var a, b, c, d := Split(e.fullName, ','), Split(e.department, ','), Split(e.position, ','), Split(e.hireDate, ',');
    calc {
      Split(FormatRow(e), ',');
      Split(e.fullName + [','] + r2, ',');
      { SplitJoin(e.fullName, r2, ','); }
      a + Split(r2, ',');
      { SplitJoin(e.department, r3, ','); }
      a + (b + Split(r3, ','));
      { SplitJoin(e.position, e.hireDate, ','); }
      a + (b + (c + d));
      { PiecesAssociate(a, b, c, d); }
      a + b + c + d;
    }
  }

  lemma PiecesAssociate(a: seq<string>, b: seq<string>, c: seq<string>, d: seq<string>)
    ensures a + (b + (c + d)) == a + b + c + d
  {
  }

  /** `x , y , z` read from the left is `x , (y , z)`. */
  lemma Associate(x: string, y: string, z: string)
    ensures x + [','] + y + [','] + z == x + [','] + (y + [','] + z)
  {
  }

  /** The reference split: every piece of `s` between delimiters, in order (the empty string has one empty piece). */
  function Split(s: string, delim: char): (pieces: seq<string>)
    ensures |pieces| >= 1
    decreases |s|
  {
    var k := IndexOf(s, delim);
    if k == |s| then [s] else [s[..k]] + Split(s[k + 1..], delim)
  }

  /** Field `k` of `pieces`, or `""` when there are fewer pieces. */
  function FieldOr(pieces: seq<string>, k: nat): string
  {
    if k < |pieces| then pieces[k] else ""
  }

  /** The record made of the first four pieces, any missing one empty. */
  function FirstFour(pieces: seq<string>): Employee
  {
    Employee(FieldOr(pieces, 0), FieldOr(pieces, 1), FieldOr(pieces, 2), FieldOr(pieces, 3))
  }

  /**
   * A stream whose unread text splits into `pieces` (or that is done, with
   * no pieces left) delivers the first piece with `getline(…, ',')` and is
   * left holding the rest.
   */
  lemma FieldsAfterRead(stream: Option<string>, pieces: seq<string>)
    requires stream.None? ==> pieces == []
    requires stream.Some? ==> pieces == Split(stream.value, ',')
    ensures GetLine(stream, ',').field == FieldOr(pieces, 0)
    ensures GetLine(stream, ',').rest.None? ==> Tail(pieces) == []
    ensures GetLine(stream, ',').rest.Some? ==> Tail(pieces) == Split(GetLine(stream, ',').rest.value, ',')
  {
  }

  /** Splitting `a`, a delimiter and `b` splits `a` and `b` apart. */
  lemma {:induction false} SplitJoin(a: string, b: string, delim: char)
    ensures Split(a + [delim] + b, delim) == Split(a, delim) + Split(b, delim)
    decreases |a|
  {
    var k := IndexOf(a, delim);
    if k == |a| {
      SplitJoinNoDelim(a, b, delim);
    } else {
      DelimInFirst(a, b, delim, k);
      SplitJoin(a[k + 1..], b, delim);
      calc {
        Split(a + [delim] + b, delim);
        [a[..k]] + Split(a[k + 1..] + [delim] + b, delim);
        [a[..k]] + (Split(a[k + 1..], delim) + Split(b, delim));
        ([a[..k]] + Split(a[k + 1..], delim)) + Split(b, delim);
      }
    }
  }

  /** When `a` has no delimiter, `a + [delim] + b` splits into `a` and the pieces of `b`. */
  lemma SplitJoinNoDelim(a: string, b: string, delim: char)
    requires IndexOf(a, delim) == |a|
    ensures Split(a + [delim] + b, delim) == [a] + Split(b, delim)
  {
    var s := a + [delim] + b;
    IndexOfAfter(a, delim, b);
    assert s[..|a|] == a && s[|a| + 1..] == b;
  }

  /** Where `a` has its first delimiter at `k`, `a + [delim] + b` splits there too. */
  lemma DelimInFirst(a: string, b: string, delim: char, k: int)
    requires k == IndexOf(a, delim) < |a|
    ensures Split(a + [delim] + b, delim) == [a[..k]] + Split(a[k + 1..] + [delim] + b, delim)
  {
    IndexOfJoin(a, b, delim);
    SplitAt(a + [delim] + b, delim, k);
    SliceOfJoin(a, b, delim, k);
  }

  /** The first delimiter of `a + [delim] + b` is the first one of `a`, when `a` has one. */
  lemma IndexOfJoin(a: string, b: string, delim: char)
    requires delim in a
    ensures IndexOf(a + [delim] + b, delim) == IndexOf(a, delim)
  {
    IndexOfPrefix(a, delim, [delim] + b);
    assert a + [delim] + b == a + ([delim] + b);
  }

  /** Cutting `a + [delim] + b` around a position `k` inside `a`. */
  lemma SliceOfJoin(a: string, b: string, delim: char, k: int)
    requires 0 <= k < |a|
    ensures (a + [delim] + b)[..k] == a[..k]
    ensures (a + [delim] + b)[k + 1..] == a[k + 1..] + [delim] + b
  {
    var s := a + [delim] + b;
    assert s[..k] == a[..k];
    assert s[k + 1..] == a[k + 1..] + [delim] + b;
  }

  /** A string with its first delimiter at `k` splits into `s[..k]` and the pieces after `k`. */
  lemma SplitAt(s: string, delim: char, k: int)
    requires k == IndexOf(s, delim) < |s|
    ensures Split(s, delim) == [s[..k]] + Split(s[k + 1..], delim)
  {
  }

  /** The first `c` in `a + [c] + b` is the one after `a`, when `a` has none. */
  lemma {:induction false} IndexOfAfter(a: string, c: char, b: string)
    requires c !in a
    ensures IndexOf(a + [c] + b, c) == |a|
  {
    if a != [] {
      assert (a + [c] + b)[1..] == a[1..] + [c] + b;
      IndexOfAfter(a[1..], c, b);
    }
  }

  /** Text appended after a `c` does not move the first `c`. */
  lemma {:induction false} IndexOfPrefix(a: string, c: char, b: string)
    requires c in a
    ensures IndexOf(a + b, c) == IndexOf(a, c)
  {
    if a[0] != c {
      assert (a + b)[1..] == a[1..] + b;
      IndexOfPrefix(a[1..], c, b);
    }
  }

  /** A string without the delimiter is a single piece, and only such a string is. */
  lemma SplitSingle(s: string, delim: char)
    ensures Split(s, delim) == [s] <==> delim !in s
  {
    var k := IndexOf(s, delim);
    if delim in s {
      var p :| 0 <= p < |s| && s[p] == delim;
      assert k < |s|;
      assert |Split(s, delim)[0]| == k;
    }
  }

  /**
   * Writing a record and reading the line back gives the record again
   * exactly when none of its fields contains `,`: a comma in a field cuts
   * that field short.
   */
  lemma RowRoundTrip(e: Employee)
    ensures ParseRow(FormatRow(e)) == e <==> NoComma(e)
  {
    FormatRowPieces(e);
    var a, b, c, d := Split(e.fullName, ','), Split(e.department, ','), Split(e.position, ','), Split(e.hireDate, ',');
    var all := a + b + c + d;
    assert ParseRow(FormatRow(e)) == FirstFour(all);
    FieldsOfPieces(a, b, c, d);
    SplitSingle(e.fullName, ',');
    SplitSingle(e.department, ',');
    SplitSingle(e.position, ',');
    SplitSingle(e.hireDate, ',');
    PieceShorter(e.fullName, ',');
    PieceShorter(e.department, ',');
    PieceShorter(e.position, ',');
    PieceShorter(e.hireDate, ',');
  }

  /**
   * The fields read from the pieces of four joined strings: the first piece
   * of each string, as long as every string before it was a single piece.
   */
  lemma FieldsOfPieces(a: seq<string>, b: seq<string>, c: seq<string>, d: seq<string>)
    requires |a| >= 1 && |b| >= 1 && |c| >= 1 && |d| >= 1
    ensures FirstFour(a + b + c + d).fullName == a[0]
    ensures |a| == 1 ==> FirstFour(a + b + c + d).department == b[0]
    ensures |a| == 1 && |b| == 1 ==> FirstFour(a + b + c + d).position == c[0]
    ensures |a| == 1 && |b| == 1 && |c| == 1 ==> FirstFour(a + b + c + d).hireDate == d[0]
  {
  }

  /** No field of `e` contains `,`. */
  predicate NoComma(e: Employee)
  {
    ',' !in e.fullName && ',' !in e.department && ',' !in e.position && ',' !in e.hireDate
  }

  /** The first piece of a string that contains the delimiter is shorter than the string. */
  lemma PieceShorter(s: string, delim: char)
    ensures delim in s ==> |Split(s, delim)[0]| < |s|
  {
    if delim in s {
      var p :| 0 <= p < |s| && s[p] == delim;
    }
  }

  /** The lines `while (getline(file, line))` delivers from `stream`, in order. */
  function Lines(stream: Option<string>): seq<string>
    decreases Size(stream)
  {
    var r := GetLine(stream, '\n');
    if r.ok then [r.field] + Lines(r.rest) else []
  }

  /** Each line of `lines` split into a record. */
  function ParseRows(lines: seq<string>): (es: seq<Employee>)
    ensures |es| == |lines|
    ensures forall k :: 0 <= k < |lines| ==> es[k] == ParseRow(lines[k])
  {
    if lines == [] then [] else [ParseRow(lines[0])] + ParseRows(lines[1..])
  }

  /** What `read_csv` returns for a file holding `text`: the first line is skipped, every other line becomes a record. */
  function CsvRecords(text: string): seq<Employee>
  {
    ParseRows(Lines(GetLine(Some(text), '\n').rest))
  }

  /**
   * `read_csv` on a file holding `text`: `getline` once to skip the header,
   * then split each further line into a record and append it.
   */
  method ReadCsv(text: string) returns (employees: seq<Employee>)
    ensures employees == CsvRecords(text)
  {
    var stream := GetLine(Some(text), '\n').rest;
    ghost var all := Lines(stream);
    employees := [];
    var line := GetLine(stream, '\n');
    while line.ok
      invariant line == GetLine(stream, '\n')
      invariant employees + ParseRows(Lines(stream)) == ParseRows(all)
      decreases Size(stream)
    {
      ghost var rest := ParseRows(Lines(line.rest));
      assert ParseRows(Lines(stream)) == [ParseRow(line.field)] + rest by {
        assert Lines(stream) == [line.field] + Lines(line.rest);
      }
      assert employees + ([ParseRow(line.field)] + rest) == (employees + [ParseRow(line.field)]) + rest;
      employees := employees + [ParseRow(line.field)];
      stream := line.rest;
      line := GetLine(stream, '\n');
    }
  }

  /** The header line `write_csv` writes first. */
  const Header: string := "FullName,Department,Position,HireDate"

  /** One line per record, each ended by `\n`. */
  function RowsText(employees: seq<Employee>): string
  {
    if employees == [] then "" else FormatRow(employees[0]) + "\n" + RowsText(employees[1..])
  }

  /** The line of each record, without its line break. */
  function FormatRows(employees: seq<Employee>): (lines: seq<string>)
    ensures |lines| == |employees|
    ensures forall k :: 0 <= k < |employees| ==> lines[k] == FormatRow(employees[k])
  {
    if employees == [] then [] else [FormatRow(employees[0])] + FormatRows(employees[1..])
  }

  /** What `write_csv` writes for `employees`: the header line, then one line per record. */
  function CsvText(employees: seq<Employee>): string
  {
    Header + "\n" + RowsText(employees)
  }

  /** `write_csv`: write the header line, then the line of each record in order. */
  method WriteCsv(employees: seq<Employee>) returns (text: string)
    ensures text == CsvText(employees)
  {
    text := Header + "\n";
    for i := 0 to |employees|
      invariant text == Header + "\n" + RowsText(employees[..i])
    {
      RowsTextSnoc(employees[..i], employees[i]);
      assert employees[..i + 1] == employees[..i] + [employees[i]];
      text := text + FormatRow(employees[i]) + "\n";
    }
    assert employees[..|employees|] == employees;
  }

  /** Writing one more record appends its line. */
  lemma {:induction false} RowsTextSnoc(es: seq<Employee>, e: Employee)
    ensures RowsText(es + [e]) == RowsText(es) + FormatRow(e) + "\n"
  {
    if es != [] {
      assert (es + [e])[1..] == es[1..] + [e];
      RowsTextSnoc(es[1..], e);
    }
  }

  /** No field of `e` contains `,` or `\n`. */
  predicate Clean(e: Employee)
  {
    NoComma(e) && '\n' !in e.fullName && '\n' !in e.department && '\n' !in e.position && '\n' !in e.hireDate
  }

  /**
   * Reading back what `write_csv` wrote gives the same records, provided no
   * field contains a `,` or a line break.
   */
  lemma FileRoundTrip(employees: seq<Employee>)
    requires forall k :: 0 <= k < |employees| ==> Clean(employees[k])
    ensures CsvRecords(CsvText(employees)) == employees
  {
    assert '\n' !in Header;
    IndexOfAfter(Header, '\n', RowsText(employees));
    var text := CsvText(employees);
    assert text[|Header| + 1..] == RowsText(employees);
    var lines := Lines(Some(RowsText(employees)));
    RowsLines(employees);
    forall k | 0 <= k < |employees| ensures ParseRow(lines[k]) == employees[k] {
      RowRoundTrip(employees[k]);
    }
  }

  /** The lines of the rows text are the rows, when no field holds a line break. */
  lemma {:induction false} RowsLines(employees: seq<Employee>)
    requires forall k :: 0 <= k < |employees| ==> Clean(employees[k])
    ensures Lines(Some(RowsText(employees))) == FormatRows(employees)
  {
    if employees != [] {
      var e := employees[0];
      assert '\n' !in FormatRow(e) by {
        assert Clean(e);
        assert FormatRow(e) == e.fullName + "," + e.department + "," + e.position + "," + e.hireDate;
      }
      IndexOfAfter(FormatRow(e), '\n', RowsText(employees[1..]));
      var s := FormatRow(e) + "\n" + RowsText(employees[1..]);
      assert s[..|FormatRow(e)|] == FormatRow(e) && s[|FormatRow(e)| + 1..] == RowsText(employees[1..]);
      RowsLines(employees[1..]);
      if employees[1..] == [] {
        assert Lines(Some("")) == [];
      }
    }
  }

  /** Every line `getline` delivers is free of line breaks. */
  lemma {:induction false} LinesHaveNoBreak(stream: Option<string>)
    ensures forall k :: 0 <= k < |Lines(stream)| ==> '\n' !in Lines(stream)[k]
    decreases Size(stream)
  {
    var r := GetLine(stream, '\n');
    if r.ok {
      LinesHaveNoBreak(r.rest);
    }
  }

  /** The pieces of a string without `c` are without `c`. */
  lemma {:induction false} PiecesAvoid(s: string, delim: char, c: char)
    requires c !in s
    ensures forall k :: 0 <= k < |Split(s, delim)| ==> c !in Split(s, delim)[k]
    decreases |s|
  {
    var k := IndexOf(s, delim);
    if k < |s| {
      var rest := s[k + 1..];
      assert c !in s[..k] && c !in rest by {
        assert s == s[..k] + [s[k]] + rest;
      }
      PiecesAvoid(rest, delim, c);
      var pieces := Split(s, delim);
      assert pieces == [s[..k]] + Split(rest, delim);
      forall q | 0 <= q < |pieces| ensures c !in pieces[q] {
        if q > 0 {
          assert pieces[q] == Split(rest, delim)[q - 1];
        }
      }
    }
  }

  /** Every record `read_csv` returns has fields without `,` or line breaks. */
  lemma RecordsClean(text: string)
    ensures forall k :: 0 <= k < |CsvRecords(text)| ==> Clean(CsvRecords(text)[k])
  {
    var lines := Lines(GetLine(Some(text), '\n').rest);
    LinesHaveNoBreak(GetLine(Some(text), '\n').rest);
    forall k | 0 <= k < |lines| ensures Clean(ParseRow(lines[k])) {
      PiecesAvoid(lines[k], ',', '\n');
    }
  }
}

=== FILE: employee.dfy ===
/** The employee record and the order the benchmark sorts it by. */
module Employees {

  /** One employee row, with the four fields of `struct Employee` in declaration order. */
  datatype Employee = Employee(fullName: string, department: string, position: string, hireDate: string)

  /**
   * `std::string` less-than: compare character by character, and a proper
   * prefix comes first. Characters stand for the bytes of the string and are
   * compared as unsigned values, as `std::char_traits<char>::lt` does.
   */
  predicate StrLess(s: string, t: string)
  {
    if |s| == 0 then |t| > 0
    else if |t| == 0 then false
    else if s[0] != t[0] then s[0] < t[0]
    else StrLess(s[1..], t[1..])
  }

  lemma {:induction false} StrLessIrreflexive(s: string)
    ensures !StrLess(s, s)
  {
    if |s| > 0 {
      StrLessIrreflexive(s[1..]);
    }
  }

  lemma {:induction false} StrLessTransitive(s: string, t: string, u: string)
    requires StrLess(s, t) && StrLess(t, u)
    ensures StrLess(s, u)
  {
    if |s| > 0 && |t| > 0 && |u| > 0 && s[0] == t[0] && t[0] == u[0] {
      StrLessTransitive(s[1..], t[1..], u[1..]);
    }
  }

  /** Two different strings are always ordered one way or the other. */
  lemma {:induction false} StrLessConnected(s: string, t: string)
    ensures s == t || StrLess(s, t) || StrLess(t, s)
  {
    if |s| > 0 && |t| > 0 && s[0] == t[0] {
      StrLessConnected(s[1..], t[1..]);
      if s[1..] == t[1..] {
        assert s == [s[0]] + s[1..] && t == [t[0]] + t[1..];
      }
    }
  }

  /** `Employee::operator<`: department, then full name, then hire date, then position. */
  predicate Less(a: Employee, b: Employee)
  {
    if StrLess(a.department, b.department) then true
    else if StrLess(b.department, a.department) then false
    else if StrLess(a.fullName, b.fullName) then true
    else if StrLess(b.fullName, a.fullName) then false
    else if StrLess(a.hireDate, b.hireDate) then true
    else if StrLess(b.hireDate, a.hireDate) then false
    else StrLess(a.position, b.position)
  }

  /** The composite key, in the priority order `operator<` uses. */
  function Key(e: Employee): (k: seq<string>)
    ensures |k| == 4
  {
    [e.department, e.fullName, e.hireDate, e.position]
  }

  /** Lexicographic order on equally long sequences of strings. */
  predicate LexLess(xs: seq<string>, ys: seq<string>)
    requires |xs| == |ys|
  {
    |xs| > 0 && (StrLess(xs[0], ys[0]) || (xs[0] == ys[0] && LexLess(xs[1..], ys[1..])))
  }

  /** Two fields neither of which is below the other are equal. */
  lemma StrTied(s: string, t: string)
    requires !StrLess(s, t) && !StrLess(t, s)
    ensures s == t
  {
    StrLessConnected(s, t);
  }

  /** `operator<` is exactly the lexicographic order on the composite key. */
  lemma LessIsKeyOrder(a: Employee, b: Employee)
    ensures Less(a, b) <==> LexLess(Key(a), Key(b))
  {
    var ka, kb := Key(a), Key(b);
    assert ka[1..][1..][1..][1..] == [] && kb[1..][1..][1..][1..] == [];
    if !StrLess(a.department, b.department) && !StrLess(b.department, a.department) {
      StrTied(a.department, b.department);
      if !StrLess(a.fullName, b.fullName) && !StrLess(b.fullName, a.fullName) {
        StrTied(a.fullName, b.fullName);
        if !StrLess(a.hireDate, b.hireDate) && !StrLess(b.hireDate, a.hireDate) {
          StrTied(a.hireDate, b.hireDate);
          assert LexLess(ka[1..][1..][1..], kb[1..][1..][1..]) <==> StrLess(a.position, b.position);
          assert LexLess(ka[1..][1..], kb[1..][1..]) <==> StrLess(a.position, b.position);
        } else {
          StrLessIrreflexive(a.hireDate);
          assert LexLess(ka[1..][1..], kb[1..][1..]) <==> StrLess(a.hireDate, b.hireDate);
        }
      } else {
        StrLessIrreflexive(a.fullName);
      }
    } else {
      StrLessIrreflexive(a.department);
    }
  }

  lemma LessIrreflexive(a: Employee)
    ensures !Less(a, a)
  {
    StrLessIrreflexive(a.department);
    StrLessIrreflexive(a.fullName);
    StrLessIrreflexive(a.hireDate);
    StrLessIrreflexive(a.position);
  }

  lemma LessTransitive(a: Employee, b: Employee, c: Employee)
    requires Less(a, b) && Less(b, c)
    ensures Less(a, c)
  {
    LessIsKeyOrder(a, b);
    LessIsKeyOrder(b, c);
    LessIsKeyOrder(a, c);
    LexLessTransitive(Key(a), Key(b), Key(c));
  }

  lemma {:induction false} LexLessTransitive(xs: seq<string>, ys: seq<string>, zs: seq<string>)
    requires |xs| == |ys| == |zs|
    requires LexLess(xs, ys) && LexLess(ys, zs)
    ensures LexLess(xs, zs)
  {
    if StrLess(xs[0], ys[0]) && StrLess(ys[0], zs[0]) {
      StrLessTransitive(xs[0], ys[0], zs[0]);
    } else if xs[0] == ys[0] && ys[0] == zs[0] {
      LexLessTransitive(xs[1..], ys[1..], zs[1..]);
    }
  }

  /** Records that differ in any field are ordered one way or the other. */
  lemma LessConnected(a: Employee, b: Employee)
    ensures a == b || Less(a, b) || Less(b, a)
  {
    StrLessConnected(a.department, b.department);
    StrLessConnected(a.fullName, b.fullName);
    StrLessConnected(a.hireDate, b.hireDate);
    StrLessConnected(a.position, b.position);
  }

  lemma LessAsymmetric(a: Employee, b: Employee)
    requires Less(a, b)
    ensures !Less(b, a)
  {
    if Less(b, a) {
      LessTransitive(a, b, a);
      LessIrreflexive(a);
    }
  }

  /** `Employee::operator>`: `b < a`. */
  predicate Greater(a: Employee, b: Employee)
  {
    Less(b, a)
  }

  /** `Employee::operator<=`: `!(b < a)`. */
  predicate LessEq(a: Employee, b: Employee)
  {
    !Less(b, a)
  }

  /** `Employee::operator>=`: `!(a < b)`. */
  predicate GreaterEq(a: Employee, b: Employee)
  {
    !Less(a, b)
  }

  /**
   * What the derived operators mean: `>` is `<` reversed, `<=` is "`<` or
   * equal" and `>=` is "`>` or equal".
   */
  lemma DerivedOperators(a: Employee, b: Employee)
    ensures Greater(a, b) <==> a != b && !Less(a, b)
    ensures LessEq(a, b) <==> Less(a, b) || a == b
    ensures GreaterEq(a, b) <==> Less(b, a) || a == b
  {
    LessConnected(a, b);
    LessIrreflexive(a);
    if Less(a, b) {
      LessAsymmetric(a, b);
    }
  }

  lemma LessEqTransitive(a: Employee, b: Employee, c: Employee)
    requires LessEq(a, b) && LessEq(b, c)
    ensures LessEq(a, c)
  {
    DerivedOperators(a, b);
    DerivedOperators(b, c);
    DerivedOperators(a, c);
    if a != b && b != c {
      LessTransitive(a, b, c);
    }
  }

  /** Records tied under `<=` both ways are the same record. */
  lemma LessEqAntisymmetric(a: Employee, b: Employee)
    requires LessEq(a, b) && LessEq(b, a)
    ensures a == b
  {
    LessConnected(a, b);
  }

  /** Of two records, one is always `<=` the other. */
  lemma LessEqTotal(a: Employee, b: Employee)
    ensures LessEq(a, b) || LessEq(b, a)
  {
    if Less(a, b) {
      LessAsymmetric(a, b);
    }
  }

  /** `<` is a strict total order on records: no tie between two different records. */
  lemma LessIsStrictTotalOrder()
    ensures forall a :: !Less(a, a)
    ensures forall a, b :: Less(a, b) ==> !Less(b, a)
    ensures forall a, b, c :: Less(a, b) && Less(b, c) ==> Less(a, c)
    ensures forall a, b :: a != b ==> Less(a, b) || Less(b, a)
  {
    forall a ensures !Less(a, a) { LessIrreflexive(a); }
    forall a, b | Less(a, b) ensures !Less(b, a) { LessAsymmetric(a, b); }
    forall a, b, c | Less(a, b) && Less(b, c) ensures Less(a, c) { LessTransitive(a, b, c); }
    forall a, b | a != b ensures Less(a, b) || Less(b, a) { LessConnected(a, b); }
  }

  /** `<=` is a total order: reflexive, antisymmetric, transitive and total. */
  lemma LessEqIsTotalOrder()
    ensures forall a :: LessEq(a, a)
    ensures forall a, b :: LessEq(a, b) && LessEq(b, a) ==> a == b
    ensures forall a, b, c :: LessEq(a, b) && LessEq(b, c) ==> LessEq(a, c)
    ensures forall a, b :: LessEq(a, b) || LessEq(b, a)
  {
    forall a ensures LessEq(a, a) { LessIrreflexive(a); }
    forall a, b | LessEq(a, b) && LessEq(b, a) ensures a == b { LessEqAntisymmetric(a, b); }
    forall a, b, c | LessEq(a, b) && LessEq(b, c) ensures LessEq(a, c) { LessEqTransitive(a, b, c); }
    forall a, b ensures LessEq(a, b) || LessEq(b, a) { LessEqTotal(a, b); }
  }
}

=== FILE: sort_spec.dfy ===
/**
 * What a finished sort is: sortedness by `<=`, the one sorted permutation of
 * an input, the merge of two runs, and the max-heap order that heap sort keeps.
 */
module SortSpec {
  import opened Employees

  /** `s[lo..hi)` is in non-decreasing order. */
  predicate SortedBetween(s: seq<Employee>, lo: int, hi: int)
    requires 0 <= lo <= hi <= |s|
  {
    forall p, q :: lo <= p < q < hi ==> LessEq(s[p], s[q])
  }

  predicate Sorted(s: seq<Employee>)
  {
    SortedBetween(s, 0, |s|)
  }

  /** `t` is `s` except, at most, in `[lo..hi)`. */
  predicate UnchangedOutside(s: seq<Employee>, t: seq<Employee>, lo: int, hi: int)
  {
    |s| == |t| && forall k :: 0 <= k < |s| && (k < lo || hi <= k) ==> t[k] == s[k]
  }

  /** A sorted sequence stays sorted with an element in front that is at most its head. */
  lemma SortedConsHead(x: Employee, s: seq<Employee>)
    requires Sorted(s)
    requires s != [] ==> LessEq(x, s[0])
    ensures Sorted([x] + s)
  {
    forall q | 0 <= q < |s| ensures LessEq(x, s[q]) {
      if q > 0 {
        LessEqTransitive(x, s[0], s[q]);
      }
    }
  }

  /** Inserts `x` into a sorted sequence before the first element it does not exceed. */
  function Insert(x: Employee, s: seq<Employee>): (r: seq<Employee>)
    requires Sorted(s)
    ensures Sorted(r)
    ensures multiset(r) == multiset(s) + multiset{x}
    ensures r[0] == x || (s != [] && r[0] == s[0])
  {
    if s == [] then [x]
    else if LessEq(x, s[0]) then
      SortedConsHead(x, s);
      [x] + s
    else
      assert s == [s[0]] + s[1..];
      SortedSuffix(s, 1);
      var r' := Insert(x, s[1..]);
      LessEqTotal(x, s[0]);
      assert |s| > 1 ==> LessEq(s[0], s[1]);
      SortedConsHead(s[0], r');
      [s[0]] + r'
  }

  /** The sorted permutation of `s`; it stands for the result of every sort in this model. */
  function SortSeq(s: seq<Employee>): (r: seq<Employee>)
    ensures Sorted(r)
    ensures multiset(r) == multiset(s)
  {
    if s == [] then []
    else
      assert s == [s[0]] + s[1..];
      Insert(s[0], SortSeq(s[1..]))
  }

  /** The least element of a sorted sequence is its first one. */
  lemma SortedHeadIsLeast(s: seq<Employee>, x: Employee)
    requires Sorted(s) && x in multiset(s)
    ensures LessEq(s[0], x)
  {
    var k :| 0 <= k < |s| && s[k] == x;
    LessIrreflexive(x);
  }

  /**
   * Because `<` ties only equal records, a sequence has exactly one sorted
   * permutation: two sorted sequences with the same elements are equal.
   */
  lemma {:induction false} SortedPermutationUnique(s: seq<Employee>, t: seq<Employee>)
    requires Sorted(s) && Sorted(t)
    requires multiset(s) == multiset(t)
    ensures s == t
  {
    if s != [] {
      SameHeadSameRest(s, t);
      SortedSuffix(s, 1);
      SortedSuffix(t, 1);
      SortedPermutationUnique(s[1..], t[1..]);
      assert s == [s[0]] + s[1..] && t == [t[0]] + t[1..];
    }
  }

  /**
   * Two sorted permutations of each other start with the same record, and
   * what follows it is again a permutation.
   */
  lemma SameHeadSameRest(s: seq<Employee>, t: seq<Employee>)
    requires Sorted(s) && Sorted(t) && s != []
    requires multiset(s) == multiset(t)
    ensures t != [] && s[0] == t[0]
    ensures multiset(s[1..]) == multiset(t[1..])
  {
    assert s[0] in multiset(t);
    SortedHeadIsLeast(t, s[0]);
    SortedHeadIsLeast(s, t[0]);
    LessEqAntisymmetric(s[0], t[0]);
    TailMultiset(s);
    TailMultiset(t);
  }

  /** The elements after the first are all the elements less the first. */
  lemma TailMultiset(s: seq<Employee>)
    requires s != []
    ensures multiset(s[1..]) == multiset(s) - multiset{s[0]}
  {
    assert s == [s[0]] + s[1..];
  }

  /** Any sorted permutation of `s` is `SortSeq(s)`. */
  lemma IsSortSeq(s: seq<Employee>, t: seq<Employee>)
    requires Sorted(t) && multiset(t) == multiset(s)
    ensures t == SortSeq(s)
  {
    SortedPermutationUnique(t, SortSeq(s));
  }

  /** Sorting an already sorted sequence gives back the same sequence. */
  lemma SortSeqIdempotent(s: seq<Employee>)
    requires Sorted(s)
    ensures SortSeq(s) == s
  {
    IsSortSeq(s, s);
  }

  /**
   * The interleaving `merge` writes once it has taken `xs[..i]` and `ys[..j]`:
   * the smaller head next, and on a tie (`<=` holds) the head of the left run;
   * when one run is used up, the rest of the other. The whole merge of two
   * runs is `MergeFrom(xs, ys, 0, 0)`.
   */
  function MergeFrom(xs: seq<Employee>, ys: seq<Employee>, i: nat, j: nat): (r: seq<Employee>)
    requires i <= |xs| && j <= |ys|
    ensures |r| == |xs| - i + |ys| - j
    decreases |xs| - i + |ys| - j
  {
    if i == |xs| then ys[j..]
    else if j == |ys| then xs[i..]
    else if LessEq(xs[i], ys[j]) then [xs[i]] + MergeFrom(xs, ys, i + 1, j)
    else [ys[j]] + MergeFrom(xs, ys, i, j + 1)
  }

  /** Merging keeps every element of both runs, and nothing else. */
  lemma {:induction false} MergePermutation(xs: seq<Employee>, ys: seq<Employee>, i: nat, j: nat)
    requires i <= |xs| && j <= |ys|
    ensures multiset(MergeFrom(xs, ys, i, j)) == multiset(xs[i..]) + multiset(ys[j..])
    decreases |xs| - i + |ys| - j
  {
    if i < |xs| && j < |ys| {
      assert xs[i..] == [xs[i]] + xs[i + 1..] && ys[j..] == [ys[j]] + ys[j + 1..];
      if LessEq(xs[i], ys[j]) {
        MergePermutation(xs, ys, i + 1, j);
      } else {
        MergePermutation(xs, ys, i, j + 1);
      }
    }
  }

  /** The merge of two whole runs holds the elements of both. */
  lemma MergeIsPermutation(xs: seq<Employee>, ys: seq<Employee>)
    ensures multiset(MergeFrom(xs, ys, 0, 0)) == multiset(xs) + multiset(ys)
  {
    MergePermutation(xs, ys, 0, 0);
    assert xs[0..] == xs && ys[0..] == ys;
  }

  /** A sorted sequence whose elements are all at least `x` stays sorted with `x` in front. */
  lemma SortedCons(x: Employee, s: seq<Employee>)
    requires Sorted(s)
    requires forall y | y in multiset(s) :: LessEq(x, y)
    ensures Sorted([x] + s)
  {
    forall q | 0 <= q < |s| ensures LessEq(x, s[q]) {
      assert s[q] in multiset(s);
    }
  }

  /** Every element of a sorted `s[k..]` is at least `s[k]`. */
  lemma SortedSuffixBound(s: seq<Employee>, k: nat, y: Employee)
    requires Sorted(s) && k < |s| && y in multiset(s[k..])
    ensures LessEq(s[k], y)
  {
    var m :| 0 <= m < |s[k..]| && s[k..][m] == y;
    assert s[k + m] == y;
    LessIrreflexive(y);
  }

  /** A suffix of a sorted sequence is sorted. */
  lemma SortedSuffix(s: seq<Employee>, k: nat)
    requires Sorted(s) && k <= |s|
    ensures Sorted(s[k..])
  {
    forall p, q | 0 <= p < q < |s[k..]| ensures LessEq(s[k..][p], s[k..][q]) {
      assert s[k..][p] == s[k + p] && s[k..][q] == s[k + q];
    }
  }

  /** A lower bound of both remaining runs bounds everything `merge` writes from them. */
  lemma MergeBoundedBelow(x: Employee, xs: seq<Employee>, ys: seq<Employee>, i: nat, j: nat)
    requires i <= |xs| && j <= |ys|
    requires forall y | y in multiset(xs[i..]) :: LessEq(x, y)
    requires forall y | y in multiset(ys[j..]) :: LessEq(x, y)
    ensures forall y | y in multiset(MergeFrom(xs, ys, i, j)) :: LessEq(x, y)
  {
    MergePermutation(xs, ys, i, j);
  }

  /** The element `merge` writes next is at most everything it writes after it. */
  lemma MergeHeadIsLeast(xs: seq<Employee>, ys: seq<Employee>, i: nat, j: nat)
    requires i < |xs| && j < |ys| && Sorted(xs) && Sorted(ys)
    ensures LessEq(xs[i], ys[j]) ==>
      forall y | y in multiset(MergeFrom(xs, ys, i + 1, j)) :: LessEq(xs[i], y)
    ensures !LessEq(xs[i], ys[j]) ==>
      forall y | y in multiset(MergeFrom(xs, ys, i, j + 1)) :: LessEq(ys[j], y)
  {
    LessEqTotal(xs[i], ys[j]);
    if LessEq(xs[i], ys[j]) {
      forall y | y in multiset(xs[i + 1..]) ensures LessEq(xs[i], y) {
        assert xs[i..] == [xs[i]] + xs[i + 1..];
        SortedSuffixBound(xs, i, y);
      }
      forall y | y in multiset(ys[j..]) ensures LessEq(xs[i], y) {
        SortedSuffixBound(ys, j, y);
        LessEqTransitive(xs[i], ys[j], y);
      }
      MergeBoundedBelow(xs[i], xs, ys, i + 1, j);
    } else {
      forall y | y in multiset(ys[j + 1..]) ensures LessEq(ys[j], y) {
        assert ys[j..] == [ys[j]] + ys[j + 1..];
        SortedSuffixBound(ys, j, y);
      }
      forall y | y in multiset(xs[i..]) ensures LessEq(ys[j], y) {
        SortedSuffixBound(xs, i, y);
        LessEqTransitive(ys[j], xs[i], y);
      }
      MergeBoundedBelow(ys[j], xs, ys, i, j + 1);
    }
  }

  /** Merging two sorted runs gives a sorted sequence. */
  lemma {:induction false} MergeSorted(xs: seq<Employee>, ys: seq<Employee>, i: nat, j: nat)
    requires i <= |xs| && j <= |ys|
    requires Sorted(xs) && Sorted(ys)
    ensures Sorted(MergeFrom(xs, ys, i, j))
    decreases |xs| - i + |ys| - j
  {
    if i == |xs| {
      SortedSuffix(ys, j);
    } else if j == |ys| {
      SortedSuffix(xs, i);
    } else {
      MergeHeadIsLeast(xs, ys, i, j);
      if LessEq(xs[i], ys[j]) {
        MergeSorted(xs, ys, i + 1, j);
        SortedCons(xs[i], MergeFrom(xs, ys, i + 1, j));
      } else {
        MergeSorted(xs, ys, i, j + 1);
        SortedCons(ys[j], MergeFrom(xs, ys, i, j + 1));
      }
    }
  }

  /**
   * Merging `s[left..mid]` with `s[mid+1..right]` in place permutes `s`: `t`
   * holds the elements of both runs in `[left..right]` and `s` elsewhere.
   */
  lemma MergePermutes(s: seq<Employee>, t: seq<Employee>, left: int, mid: int, right: int)
    requires 0 <= left <= mid < right < |s| == |t|
    requires multiset(t[left..right + 1]) == multiset(s[left..mid + 1]) + multiset(s[mid + 1..right + 1])
    requires UnchangedOutside(s, t, left, right + 1)
    ensures multiset(t) == multiset(s)
  {
    SplitPermuted(s, t, left, mid + 1, right + 1);
    ReplaceMiddle(s, t, left, right + 1);
  }

  /** The elements of `u[lo..hi)` are those of `u[lo..mid)` and `u[mid..hi)`. */
  lemma SplitMultiset(u: seq<Employee>, lo: int, mid: int, hi: int)
    requires 0 <= lo <= mid <= hi <= |u|
    ensures multiset(u[lo..hi]) == multiset(u[lo..mid]) + multiset(u[mid..hi])
  {
    assert u[lo..hi] == u[lo..mid] + u[mid..hi];
  }

  /** A permutation of two adjacent slices is a permutation of their union. */
  lemma SplitPermuted(s: seq<Employee>, t: seq<Employee>, lo: int, mid: int, hi: int)
    requires 0 <= lo <= mid <= hi <= |s| == |t|
    requires multiset(t[lo..hi]) == multiset(s[lo..mid]) + multiset(s[mid..hi])
    ensures multiset(t[lo..hi]) == multiset(s[lo..hi])
  {
    SplitMultiset(s, lo, mid, hi);
  }

  /** Replacing `[lo..hi)` by a permutation of it permutes the whole sequence. */
  lemma ReplaceMiddle(s: seq<Employee>, t: seq<Employee>, lo: int, hi: int)
    requires 0 <= lo <= hi <= |s|
    requires UnchangedOutside(s, t, lo, hi)
    requires multiset(t[lo..hi]) == multiset(s[lo..hi])
    ensures multiset(t) == multiset(s)
  {
    MultisetParts(s, lo, hi);
    MultisetParts(t, lo, hi);
    assert t[..lo] == s[..lo];
    assert t[hi..] == s[hi..];
  }

  /** The elements of `u` are those before, inside and after `[lo..hi)`. */
  lemma MultisetParts(u: seq<Employee>, lo: int, hi: int)
    requires 0 <= lo <= hi <= |u|
    ensures multiset(u) == multiset(u[..lo]) + multiset(u[lo..hi]) + multiset(u[hi..])
  {
    assert u == u[..lo] + u[lo..hi] + u[hi..];
  }

  /** `s[lo..hi)` holds the first `hi - lo` elements of `w`. */
  predicate HoldsStart(s: seq<Employee>, lo: int, hi: int, w: seq<Employee>)
  {
    0 <= lo <= hi <= |s| && hi - lo <= |w| && forall p :: lo <= p < hi ==> s[p] == w[p - lo]
  }

  /**
   * Writing the next element of `w` at `k` extends the written start of `w`
   * by one place, and the change stays inside `[lo..k + 1)`.
   */
  lemma WriteNext(s0: seq<Employee>, s: seq<Employee>, t: seq<Employee>, lo: int, k: int, w: seq<Employee>)
    requires HoldsStart(s, lo, k, w) && UnchangedOutside(s0, s, lo, k)
    requires k < |s| && k - lo < |w| && t == s[k := w[k - lo]]
    ensures HoldsStart(t, lo, k + 1, w) && UnchangedOutside(s0, t, lo, k + 1)
  {
  }

  /**
   * When one run is used up, the rest of the merged result is the rest of
   * the other run.
   */
  lemma MergeTail(xs: seq<Employee>, ys: seq<Employee>, i: nat, j: nat, whole: seq<Employee>)
    requires i <= |xs| && j <= |ys| && (i == |xs| || j == |ys|)
    requires i + j <= |whole| && whole[i + j..] == MergeFrom(xs, ys, i, j)
    ensures |whole| == |xs| + |ys|
    ensures whole[i + j..|xs| + j] == xs[i..]
    ensures whole[|xs| + j..] == ys[j..]
  {
    assert whole[i + j..] == xs[i..] + ys[j..];
  }

  lemma MergeStepLeft(xs: seq<Employee>, ys: seq<Employee>, i: nat, j: nat, whole: seq<Employee>)
    requires i < |xs| && j <= |ys| && (j == |ys| || LessEq(xs[i], ys[j]))
    requires i + j <= |whole| && whole[i + j..] == MergeFrom(xs, ys, i, j)
    ensures i + j < |whole| && whole[i + j] == xs[i] && whole[i + j + 1..] == MergeFrom(xs, ys, i + 1, j)
  {
    if j == |ys| {
      assert xs[i..] == [xs[i]] + xs[i + 1..];
    }
    assert whole[i + j..][1..] == whole[i + j + 1..];
  }

  lemma MergeStepRight(xs: seq<Employee>, ys: seq<Employee>, i: nat, j: nat, whole: seq<Employee>)
    requires i <= |xs| && j < |ys| && (i == |xs| || !LessEq(xs[i], ys[j]))
    requires i + j <= |whole| && whole[i + j..] == MergeFrom(xs, ys, i, j)
    ensures i + j < |whole| && whole[i + j] == ys[j] && whole[i + j + 1..] == MergeFrom(xs, ys, i, j + 1)
  {
    if i == |xs| {
      assert ys[j..] == [ys[j]] + ys[j + 1..];
    }
    assert whole[i + j..][1..] == whole[i + j + 1..];
  }

  /**
   * The three loops of `merge` together: the first leaves the start of the
   * merged result `whole` in `[lo..k1)` with one run used up, the second and
   * third copy what is left of the two runs after it. Then `[lo..lo+|whole|)`
   * holds `whole`, and the three changes stayed inside it.
   */
  lemma MergeWritten(s0: seq<Employee>, s1: seq<Employee>, s2: seq<Employee>, s3: seq<Employee>,
                     xs: seq<Employee>, ys: seq<Employee>, i: int, j: int,
                     lo: int, k1: int, k2: int, k3: int, whole: seq<Employee>)
    requires 0 <= i <= |xs| && 0 <= j <= |ys| && (i == |xs| || j == |ys|) && i + j <= |whole|
    requires whole[i + j..] == MergeFrom(xs, ys, i, j)
    requires k1 == lo + i + j && k2 == k1 + |xs| - i && k3 == k2 + |ys| - j
    requires HoldsStart(s1, lo, k1, whole) && UnchangedOutside(s0, s1, lo, k1)
    requires HoldsStart(s2, k1, k2, xs[i..]) && UnchangedOutside(s1, s2, k1, k2)
    requires HoldsStart(s3, k2, k3, ys[j..]) && UnchangedOutside(s2, s3, k2, k3)
    ensures k3 == lo + |whole| && k3 <= |s3|
    ensures s3[lo..k3] == whole
    ensures UnchangedOutside(s0, s3, lo, k3)
  {
    MergeTail(xs, ys, i, j, whole);
    forall p | lo <= p < k3 ensures s3[p] == whole[p - lo] {
      if p < k1 {
        assert s2[p] == s1[p];
      } else if p < k2 {
        assert s2[p] == xs[i..][p - k1] == whole[i + j..|xs| + j][p - k1];
      } else {
        assert s3[p] == ys[j..][p - k2] == whole[|xs| + j..][p - k2];
      }
    }
    assert s3[lo..k3] == whole;
  }

  /** Index of the parent of heap node `c`. */
  function Parent(c: int): int
  {
    (c - 1) / 2
  }

  /**
   * Node `k` lies in the subtree rooted at node `r`: it is `r` itself or a
   * descendant of `r` through children `2p+1` and `2p+2`.
   */
  predicate InSubtree(k: int, r: int)
    decreases k
  {
    0 <= r <= k && (k == r || InSubtree(Parent(k), r))
  }

  /** Every node from 0 on lies in the subtree of the root. */
  lemma {:induction false} RootSubtree(k: int)
    requires 0 <= k
    ensures InSubtree(k, 0)
    decreases k
  {
    if k > 0 {
      RootSubtree(Parent(k));
    }
  }

  /** A node in the subtree of a node in the subtree of `r` is in the subtree of `r`. */
  lemma {:induction false} SubtreeNested(k: int, c: int, r: int)
    requires InSubtree(c, r) && InSubtree(k, c)
    ensures InSubtree(k, r)
    decreases k
  {
    if k != c {
      SubtreeNested(Parent(k), c, r);
    }
  }

  /**
   * Max-heap order on the prefix `s[0..n)` for every parent at index `lo` or
   * above: no child exceeds its parent. This is the order the loops of heap
   * sort keep.
   */
  predicate Heap(s: seq<Employee>, n: int, lo: int)
    requires 0 <= n <= |s|
  {
    forall c :: 0 < c < n && lo <= Parent(c) ==> LessEq(s[c], s[Parent(c)])
  }

  /**
   * Max-heap order on the prefix `s[0..n)` for every parent in the subtree
   * rooted at `r`, except the parent `skip` (pass -1 to skip none).
   */
  predicate SubtreeHeapExcept(s: seq<Employee>, n: int, r: int, skip: int)
    requires 0 <= n <= |s|
  {
    forall c {:trigger LessEq(s[c], s[Parent(c)])} :: 0 < c < n && InSubtree(Parent(c), r) && Parent(c) != skip ==> LessEq(s[c], s[Parent(c)])
  }

  /** The subtree of `s[0..n)` rooted at `r` is a max-heap. */
  predicate SubtreeHeap(s: seq<Employee>, n: int, r: int)
    requires 0 <= n <= |s|
  {
    SubtreeHeapExcept(s, n, r, -1)
  }

  /** `t` differs from `s` only at nodes of the subtree rooted at `r`. */
  predicate UnchangedOutsideSubtree(s: seq<Employee>, t: seq<Employee>, r: int)
  {
    |s| == |t| && forall k :: 0 <= k < |s| && !InSubtree(k, r) ==> t[k] == s[k]
  }

  /**
   * The premise of sifting down node 1 of a seven-node heap concerns only
   * the subtree of node 1, whose nodes 3 and 4 have no children inside the
   * heap: it holds whatever nodes 0, 2, 5 and 6 hold.
   */
  lemma SubtreePremiseIsLocal(s: seq<Employee>)
    requires 7 <= |s|
    ensures SubtreeHeapExcept(s, 7, 1, 1)
  {
  }

  /**
   * One step of sifting down: in `s`, node `i` of the subtree rooted at `r`
   * breaks the heap order only towards its children, `c` is its largest
   * child and at least `s[i]`; swapping `i` and `c` gives `t`, where only
   * node `c` may break the order, and only towards its own children.
   */
  lemma {:induction false} SiftDownStep(s: seq<Employee>, t: seq<Employee>, n: int, i: int, c: int, r: int)
    requires InSubtree(i, r) && i < c < n <= |s| == |t|
    requires c == 2 * i + 1 || c == 2 * i + 2
    requires SubtreeHeapExcept(s, n, r, i)
    requires i != r ==> ((2 * i + 1 < n ==> LessEq(s[2 * i + 1], s[Parent(i)]))
      && (2 * i + 2 < n ==> LessEq(s[2 * i + 2], s[Parent(i)])))
    requires LessEq(s[i], s[c])
    requires 2 * i + 1 < n ==> LessEq(s[2 * i + 1], s[c])
    requires 2 * i + 2 < n ==> LessEq(s[2 * i + 2], s[c])
    requires t[i] == s[c] && t[c] == s[i]
    requires forall k :: 0 <= k < |s| && k != i && k != c ==> t[k] == s[k]
    ensures SubtreeHeapExcept(t, n, r, c)
    ensures UnchangedOutside(s, t, i, n)
    ensures InSubtree(c, r)
    ensures 2 * c + 1 < n ==> LessEq(t[2 * c + 1], t[Parent(c)])
    ensures 2 * c + 2 < n ==> LessEq(t[2 * c + 2], t[Parent(c)])
  {
    assert Parent(c) == i;
    forall k | 0 < k < n && InSubtree(Parent(k), r) && Parent(k) != c
      ensures LessEq(t[k], t[Parent(k)])
    {
      if Parent(k) == i {
        assert k == 2 * i + 1 || k == 2 * i + 2;
        assert t[Parent(k)] == s[c];
        if k == c {
          assert t[k] == s[i];
        } else {
          assert t[k] == s[k];
        }
      } else if k == i {
        assert Parent(i) < i && r <= Parent(i);
        assert t[k] == s[c] && t[Parent(k)] == s[Parent(i)];
        assert LessEq(s[c], s[Parent(i)]);
      } else {
        assert k != c;
        assert t[k] == s[k] && t[Parent(k)] == s[Parent(k)];
        assert LessEq(s[k], s[Parent(k)]);
      }
    }
    if 2 * c + 1 < n {
      assert Parent(2 * c + 1) == c;
    }
    if 2 * c + 2 < n {
      assert Parent(2 * c + 2) == c;
    }
  }

  /**
   * Swapping node `i` with its child `c`, then changing only the subtree of
   * `c`, changes only the subtree of `i`.
   */
  lemma SiftDownFrame(s: seq<Employee>, t: seq<Employee>, u: seq<Employee>, i: int, c: int)
    requires 0 <= i && (c == 2 * i + 1 || c == 2 * i + 2) && |s| == |t|
    requires forall k :: 0 <= k < |s| && k != i && k != c ==> t[k] == s[k]
    requires UnchangedOutsideSubtree(t, u, c)
    ensures UnchangedOutsideSubtree(s, u, i)
  {
    assert Parent(c) == i && InSubtree(c, i);
    forall k | 0 <= k < |s| && !InSubtree(k, i) ensures u[k] == s[k] {
      if InSubtree(k, c) {
        SubtreeNested(k, c, i);
      }
    }
  }

  /** When node `i` is at least its children, the heap order holds at `i` too. */
  lemma SubtreeHeapClosed(s: seq<Employee>, n: int, r: int, i: int)
    requires 0 <= i < n <= |s|
    requires SubtreeHeapExcept(s, n, r, i)
    requires 2 * i + 1 < n ==> LessEq(s[2 * i + 1], s[i])
    requires 2 * i + 2 < n ==> LessEq(s[2 * i + 2], s[i])
    ensures SubtreeHeap(s, n, r)
  {
    forall k | 0 < k < n && InSubtree(Parent(k), r)
      ensures LessEq(s[k], s[Parent(k)])
    {
      if Parent(k) == i {
        assert k == 2 * i + 1 || k == 2 * i + 2;
      }
    }
  }

  /**
   * The first loop of heap sort, before the call at node `i`: the heap order
   * from `i + 1` on gives the two subtrees below `i` in heap order.
   */
  lemma HeapAboveGivesSubtrees(s: seq<Employee>, n: int, i: int)
    requires 0 <= i < n <= |s|
    requires Heap(s, n, i + 1)
    ensures SubtreeHeapExcept(s, n, i, i)
  {
    forall c | 0 < c < n && InSubtree(Parent(c), i) && Parent(c) != i
      ensures LessEq(s[c], s[Parent(c)])
    {
      assert i + 1 <= Parent(c);
    }
  }

  /**
   * The first loop of heap sort, after the call at node `i`: the subtree of
   * `i` is a heap and nothing outside it has changed, so the heap order
   * holds from `i` on.
   */
  lemma SubtreeExtendsHeap(s: seq<Employee>, t: seq<Employee>, n: int, i: int)
    requires 0 <= i < n <= |s|
    requires Heap(s, n, i + 1)
    requires UnchangedOutsideSubtree(s, t, i) && SubtreeHeap(t, n, i)
    ensures Heap(t, n, i)
  {
    forall c | 0 < c < n && i <= Parent(c) ensures LessEq(t[c], t[Parent(c)]) {
      if !InSubtree(Parent(c), i) {
        assert InSubtree(i, i) && Parent(c) != i;
        assert !InSubtree(c, i);
        assert t[c] == s[c] && t[Parent(c)] == s[Parent(c)];
      }
    }
  }

  /**
   * The second loop of heap sort, after the root and `s[i]` are swapped:
   * below the new root the shrunk heap `t[0..i)` is still in heap order.
   */
  lemma RootSwappedOut(s: seq<Employee>, t: seq<Employee>, i: int)
    requires 0 < i < |s| == |t|
    requires Heap(s, i + 1, 0)
    requires forall k :: 0 <= k < |s| && k != 0 && k != i ==> t[k] == s[k]
    ensures SubtreeHeapExcept(t, i, 0, 0)
  {
    forall c | 0 < c < i && InSubtree(Parent(c), 0) && Parent(c) != 0
      ensures LessEq(t[c], t[Parent(c)])
    {
      assert 0 < Parent(c) < c;
      assert t[c] == s[c] && t[Parent(c)] == s[Parent(c)];
    }
  }

  /** The subtree of the root is the whole heap. */
  lemma RootSubtreeHeap(s: seq<Employee>, n: int)
    requires 0 <= n <= |s|
    requires SubtreeHeap(s, n, 0)
    ensures Heap(s, n, 0)
  {
    forall c | 0 < c < n && 0 <= Parent(c) ensures LessEq(s[c], s[Parent(c)]) {
      RootSubtree(Parent(c));
    }
  }

  /** The root of a max-heap is at least every element of the heap. */
  lemma {:induction false} HeapRootIsMax(s: seq<Employee>, n: int, k: int)
    requires 0 <= k < n <= |s|
    requires Heap(s, n, 0)
    ensures LessEq(s[k], s[0])
    decreases k
  {
    if k > 0 {
      HeapRootIsMax(s, n, Parent(k));
      LessEqTransitive(s[k], s[Parent(k)], s[0]);
    } else {
      LessIrreflexive(s[0]);
    }
  }

  /**
   * One pass of bubble sort over `s[0..m)`, giving `t`. Before it `s[m..]` is
   * sorted and no element of `s[0..m)` exceeds one of `s[m..]`. The pass
   * permutes `s[0..m)` and leaves a largest element at `t[m-1]`. Then the
   * same holds of `t` with `m - 1` for `m`.
   */
  lemma LargestBubbledUp(s: seq<Employee>, t: seq<Employee>, m: int)
    requires 0 < m <= |s| == |t|
    requires SortedBetween(s, m, |s|)
    requires forall p, q :: 0 <= p < m <= q < |s| ==> LessEq(s[p], s[q])
    requires multiset(t) == multiset(s)
    requires forall k :: m <= k < |t| ==> t[k] == s[k]
    requires forall p :: 0 <= p < m ==> LessEq(t[p], t[m - 1])
    ensures SortedBetween(t, m - 1, |t|)
    ensures forall p, q :: 0 <= p < m - 1 <= q < |t| ==> LessEq(t[p], t[q])
  {
    assert t[m..] == s[m..];
    PermutedPrefix(t, s, m);
    forall q | m <= q < |t| ensures forall p :: 0 <= p < m ==> LessEq(t[p], t[q]) {
      BoundOfPermutedPrefix(t, s, m, t[q]);
    }
  }

  /**
   * One round of the second loop of heap sort. Before it, `s[0..i]` is a
   * max-heap, `s(i..)` is sorted and no element of the heap exceeds one after
   * it. The root and `s[i]` are swapped, giving `t`, and the shrunk heap
   * `t[0..i)` is repaired in place, giving `h`. Then the same holds of `h`
   * with `i - 1` for `i`.
   */
  lemma RootMovedToEnd(s: seq<Employee>, t: seq<Employee>, h: seq<Employee>, i: int)
    requires 0 < i < |s| == |t| == |h|
    requires Heap(s, i + 1, 0)
    requires SortedBetween(s, i + 1, |s|)
    requires forall p, q :: 0 <= p <= i < q < |s| ==> LessEq(s[p], s[q])
    requires t[0] == s[i] && t[i] == s[0]
    requires forall k :: 0 <= k < |s| && k != 0 && k != i ==> t[k] == s[k]
    requires Heap(h, i, 0)
    requires multiset(h) == multiset(t) && UnchangedOutside(t, h, 0, i)
    ensures SortedBetween(h, i, |h|)
    ensures forall p, q :: 0 <= p < i <= q < |h| ==> LessEq(h[p], h[q])
  {
    assert h[i..] == t[i..];
    PermutedPrefix(h, t, i);
    forall k | 0 <= k <= i ensures LessEq(s[k], s[0]) {
      HeapRootIsMax(s, i + 1, k);
    }
    forall q | i <= q < |h| ensures forall p :: 0 <= p < i ==> LessEq(h[p], h[q]) {
      forall p | 0 <= p < i ensures LessEq(t[p], h[q]) {
        if q > i {
          if p == 0 {
            assert LessEq(s[i], s[q]);
          } else {
            assert LessEq(s[p], s[q]);
          }
        }
      }
      BoundOfPermutedPrefix(h, t, i, h[q]);
    }
    forall p, q | i <= p < q < |h| ensures LessEq(h[p], h[q]) {
      if p == i {
        assert LessEq(s[0], s[q]);
      } else {
        assert LessEq(s[p], s[q]);
      }
    }
  }

  /**
   * An upper bound on every element of `t[0..n)` bounds every element of any
   * `s` whose prefix `s[0..n)` holds the same elements.
   */
  lemma BoundOfPermutedPrefix(s: seq<Employee>, t: seq<Employee>, n: int, x: Employee)
    requires 0 <= n <= |s| && n <= |t|
    requires multiset(s[..n]) == multiset(t[..n])
    requires forall k :: 0 <= k < n ==> LessEq(t[k], x)
    ensures forall k :: 0 <= k < n ==> LessEq(s[k], x)
  {
    forall k | 0 <= k < n ensures LessEq(s[k], x) {
      assert s[..n][k] == s[k];
      assert s[k] in multiset(t[..n]);
      var m :| 0 <= m < n && t[..n][m] == s[k];
    }
  }

  /** A change inside `[lo..hi)` followed by one inside `[mid..hi)` is a change inside `[lo..hi)`. */
  lemma UnchangedOutsideTrans(s: seq<Employee>, t: seq<Employee>, u: seq<Employee>, lo: int, mid: int, hi: int)
    requires lo <= mid
    requires UnchangedOutside(s, t, lo, hi) && UnchangedOutside(t, u, mid, hi)
    ensures UnchangedOutside(s, u, lo, hi)
  {
  }

  /** Two sequences that agree after `n` and hold the same elements hold the same elements before `n`. */
  lemma PermutedPrefix(s: seq<Employee>, t: seq<Employee>, n: int)
    requires 0 <= n <= |s| == |t|
    requires multiset(s) == multiset(t) && s[n..] == t[n..]
    ensures multiset(s[..n]) == multiset(t[..n])
  {
    assert s == s[..n] + s[n..] && t == t[..n] + t[n..];
    assert multiset(s[..n]) == multiset(s) - multiset(s[n..]);
    assert multiset(t[..n]) == multiset(t) - multiset(t[n..]);
  }
}

=== FILE: sorts.dfy ===
/**
 * The hand-written in-place sorts of the benchmark, over an array of records,
 * and the library sort it measures them against.
 */
module Sorts {
  import opened Employees
  import opened SortSpec

  /** `std::swap(a[i], a[j])`. */
  method Swap(a: array<Employee>, i: int, j: int)
    requires 0 <= i < a.Length && 0 <= j < a.Length
    modifies a
    ensures a[i] == old(a[j]) && a[j] == old(a[i])
    ensures forall k :: 0 <= k < a.Length && k != i && k != j ==> a[k] == old(a[k])
    ensures multiset(a[..]) == old(multiset(a[..]))
  {
    a[i], a[j] := a[j], a[i];
  }

  /**
   * `bubbleSort`: pass `i` carries the largest element of `a[0..n-i)` to
   * position `n-i-1`, swapping neighbours that are out of order; there are
   * `n-1` passes and no early exit. The outer guard is written `i + 1 < n`,
   * which is the code's `i < n - 1` for every non-empty array and also
   * stops at once on an empty one (see `BubbleGuardAgrees`).
   */
  method BubbleSort(a: array<Employee>)
    modifies a
    ensures Sorted(a[..])
    ensures multiset(a[..]) == old(multiset(a[..]))
  {
    var n := a.Length;
    var i := 0;
    while i + 1 < n
      invariant 0 <= i <= n && (n > 0 ==> i < n)
      invariant SortedBetween(a[..], n - i, n)
      invariant forall p, q :: 0 <= p < n - i <= q < n ==> LessEq(a[p], a[q])
      invariant multiset(a[..]) == old(multiset(a[..]))
    {
      ghost var before := a[..];
      BubblePass(a, n - i);
      LargestBubbledUp(before, a[..], n - i);
      i := i + 1;
    }
  }

  /** `size_t` values are taken modulo 2^64. */
  const SizeModulus: int := 0x1_0000_0000_0000_0000

  /** The outer bound `n - 1` of `bubbleSort` as written: a `size_t` subtraction. */
  function OuterBoundAsWritten(n: nat): nat
    requires n < SizeModulus
  {
    (n - 1) % SizeModulus
  }

  /** The inner bound `n - i - 1` of `bubbleSort` as written, also in `size_t`. */
  function InnerBoundAsWritten(n: nat, i: nat): nat
    requires n < SizeModulus && i < SizeModulus
  {
    (n - i - 1) % SizeModulus
  }

  /**
   * On an empty vector the guards as written let the first pass run: `n - 1`
   * wraps to 2^64 - 1, so `i = 0` passes the outer test, and `n - i - 1`
   * wraps the same way, so `j = 0` passes the inner one. The comparison
   * `arr[j] > arr[j + 1]` then reads `arr[0]` and `arr[1]` of a vector with
   * no elements.
   */
  lemma EmptyBubbleSortReadsPastEnd(n: nat)
    requires n == 0
    ensures 0 < OuterBoundAsWritten(n) && 0 < InnerBoundAsWritten(n, 0)
    ensures OuterBoundAsWritten(n) == SizeModulus - 1
    ensures !(0 < n) && !(1 < n)
  {
  }

  /**
   * On every non-empty vector the guards of `BubbleSort` are the code's:
   * `i < n - 1` in `size_t` is `i + 1 < n`, and within such a pass
   * `j < n - i - 1` is `j + 1 < n - i`, the bound `BubblePass` uses.
   */
  lemma BubbleGuardAgrees(n: nat, i: nat, j: nat)
    requires 0 < n < SizeModulus && i < SizeModulus
    ensures i < OuterBoundAsWritten(n) <==> i + 1 < n
    ensures i + 1 < n ==> (j < InnerBoundAsWritten(n, i) <==> j < (n - i) - 1)
  {
  }

  /**
   * The inner loop of `bubbleSort` with bound `m = n - i`: walk `j` over
   * `[0..m-1)` and swap `a[j]` and `a[j+1]` when `a[j] > a[j+1]`. Afterwards
   * `a[m-1]` is a largest element of `a[0..m)`, the elements are the same
   * and nothing from `m` on has moved.
   */
  method BubblePass(a: array<Employee>, m: int)
    requires 1 <= m <= a.Length
    modifies a
    ensures forall p :: 0 <= p < m ==> LessEq(a[p], a[m - 1])
    ensures forall k :: m <= k < a.Length ==> a[k] == old(a[k])
    ensures multiset(a[..]) == old(multiset(a[..]))
  {
    var j := 0;
    LessIrreflexive(a[0]);
    while j < m - 1
      invariant 0 <= j <= m - 1
      invariant forall p :: 0 <= p <= j ==> LessEq(a[p], a[j])
      invariant forall k :: m <= k < a.Length ==> a[k] == old(a[k])
      invariant multiset(a[..]) == old(multiset(a[..]))
    {
      if Greater(a[j], a[j + 1]) {
        LessAsymmetric(a[j + 1], a[j]);
        Swap(a, j, j + 1);
      } else {
        forall p | 0 <= p <= j {
          LessEqTransitive(a[p], a[j], a[j + 1]);
        }
        LessIrreflexive(a[j + 1]);
      }
      j := j + 1;
    }
  }

  /**
   * `heapify(arr, n, i)`: sift `a[i]` down the heap held in `a[0..n)`. Called
   * with `root == i`: when both subtrees below `i` are max-heaps, afterwards
   * the subtree rooted at `i` is one, holding the same elements, and no node
   * outside that subtree, before `i` or from `n` on has moved.
   * The ghost `root` is the node whose subtree is being repaired; in the
   * recursive call `i` lies below it, and the children of `i` do not exceed
   * the parent of `i`.
   */
  method Heapify(a: array<Employee>, n: int, i: int, ghost root: int)
    requires InSubtree(i, root) && i < n <= a.Length
    requires SubtreeHeapExcept(a[..], n, root, i)
    requires i != root ==> ((2 * i + 1 < n ==> LessEq(a[2 * i + 1], a[Parent(i)]))
      && (2 * i + 2 < n ==> LessEq(a[2 * i + 2], a[Parent(i)])))
    modifies a
    ensures SubtreeHeap(a[..], n, root)
    ensures multiset(a[..]) == old(multiset(a[..]))
    ensures UnchangedOutside(old(a[..]), a[..], i, n)
    ensures UnchangedOutsideSubtree(old(a[..]), a[..], i)
    decreases n - i
  {
    var largest := Largest(a, n, i);
    if largest != i {
      ghost var before := a[..];
      Swap(a, i, largest);
      ghost var swapped := a[..];
      SiftDownStep(before, swapped, n, i, largest, root);
      Heapify(a, n, largest, root);
      UnchangedOutsideTrans(before, swapped, a[..], i, largest, n);
      SiftDownFrame(before, swapped, a[..], i, largest);
    } else {
      SubtreeHeapClosed(a[..], n, root, i);
    }
  }

  /**
   * The choice of `largest` in `heapify`: of node `i` and its children
   * `2i+1` and `2i+2` that lie inside the heap `a[0..n)`, the one holding the
   * greatest record. A child replaces the current choice only when it is
   * strictly greater, so on a tie the earlier of the three is kept.
   */
  method Largest(a: array<Employee>, n: int, i: int) returns (largest: int)
    requires 0 <= i < n <= a.Length
    ensures largest == i || (largest == 2 * i + 1 && largest < n) || (largest == 2 * i + 2 && largest < n)
    ensures LessEq(a[i], a[largest])
    ensures 2 * i + 1 < n ==> LessEq(a[2 * i + 1], a[largest])
    ensures 2 * i + 2 < n ==> LessEq(a[2 * i + 2], a[largest])
    ensures largest != i ==> Less(a[i], a[largest])
    ensures largest == 2 * i + 2 && 2 * i + 1 < n ==> Less(a[2 * i + 1], a[largest])
  {
    largest := i;
    var l, r := 2 * i + 1, 2 * i + 2;
    if l < n && Greater(a[l], a[largest]) {
      LessAsymmetric(a[i], a[l]);
      largest := l;
    }
    if r < n && Greater(a[r], a[largest]) {
      LessAsymmetric(a[largest], a[r]);
      if largest == l {
        LessTransitive(a[i], a[l], a[r]);
        LessAsymmetric(a[i], a[r]);
      } else if l < n && a[l] != a[i] {
        DerivedOperators(a[l], a[i]);
        LessTransitive(a[l], a[i], a[r]);
        LessAsymmetric(a[l], a[r]);
      }
      largest := r;
    }
    LessIrreflexive(a[largest]);
  }

  /**
   * `heapSort`: build a max-heap bottom-up, then repeatedly swap the root to
   * the end of the heap and sift the new root down in the shrunk heap.
   */
  method HeapSort(a: array<Employee>)
    modifies a
    ensures Sorted(a[..])
    ensures multiset(a[..]) == old(multiset(a[..]))
  {
    var n := a.Length;
    BuildHeap(a);
    var i := n - 1;
    while i > 0
      invariant -1 <= i < n && (n > 0 ==> 0 <= i)
      invariant Heap(a[..], i + 1, 0)
      invariant SortedBetween(a[..], i + 1, n)
      invariant forall p, q :: 0 <= p <= i < q < n ==> LessEq(a[p], a[q])
      invariant multiset(a[..]) == old(multiset(a[..]))
    {
      ghost var heap := a[..];
      Swap(a, 0, i);
      ghost var swapped := a[..];
      RootSwappedOut(heap, swapped, i);
      Heapify(a, i, 0, 0);
      RootSubtreeHeap(a[..], i);
      RootMovedToEnd(heap, swapped, a[..], i);
      i := i - 1;
    }
  }

  /**
   * The first loop of `heapSort`: sift down every node that has a child,
   * from the last one, `n/2 - 1`, back to the root, so that the whole array
   * becomes a max-heap.
   */
  method BuildHeap(a: array<Employee>)
    modifies a
    ensures Heap(a[..], a.Length, 0)
    ensures multiset(a[..]) == old(multiset(a[..]))
  {
    var n := a.Length;
    var i := n / 2 - 1;
    while i >= 0
      invariant -1 <= i <= n / 2 - 1
      invariant Heap(a[..], n, i + 1)
      invariant multiset(a[..]) == old(multiset(a[..]))
    {
      ghost var below := a[..];
      HeapAboveGivesSubtrees(below, n, i);
      Heapify(a, n, i, i);
      SubtreeExtendsHeap(below, a[..], n, i);
      i := i - 1;
    }
  }

  /**
   * `merge(arr, left, mid, right)`: copy the runs `a[left..mid]` and
   * `a[mid+1..right]` (inclusive bounds) aside, then write them back into
   * `a[left..right]` interleaved, the left element first whenever it is `<=`
   * the right one. Nothing outside `a[left..right]` changes.
   */
  method Merge(a: array<Employee>, left: int, mid: int, right: int)
    requires 0 <= left <= mid + 1 <= right + 1 <= a.Length
    modifies a
    ensures a[left..right + 1] == MergeFrom(old(a[left..mid + 1]), old(a[mid + 1..right + 1]), 0, 0)
    ensures UnchangedOutside(old(a[..]), a[..], left, right + 1)
  {
    var leftArr := a[left..mid + 1];
    var rightArr := a[mid + 1..right + 1];
    ghost var whole := MergeFrom(leftArr, rightArr, 0, 0);
    ghost var s0 := a[..];
    var i, j, k := Interleave(a, leftArr, rightArr, left, whole);
    ghost var s1, i1, k1 := a[..], i, k;
    k := Drain(a, leftArr, i, k);
    i := |leftArr|;
    ghost var s2, k2 := a[..], k;
    k := Drain(a, rightArr, j, k);
    MergeWritten(s0, s1, s2, a[..], leftArr, rightArr, i1, j, left, k1, k2, k, whole);
  }

  /**
   * The first loop of `merge`: while both runs have elements left, copy the
   * smaller head (the left one on a tie) to `a[k]`. When it stops one run is
   * used up, `a[left..k)` holds the first `k - left` elements of the merged
   * result `whole` and the rest of `whole` is the merge of what is left.
   */
  method Interleave(a: array<Employee>, leftArr: seq<Employee>, rightArr: seq<Employee>, left: int, ghost whole: seq<Employee>)
      returns (i: int, j: int, k: int)
    requires 0 <= left && left + |leftArr| + |rightArr| <= a.Length
    requires whole == MergeFrom(leftArr, rightArr, 0, 0)
    modifies a
    ensures 0 <= i <= |leftArr| && 0 <= j <= |rightArr| && (i == |leftArr| || j == |rightArr|)
    ensures k == left + i + j
    ensures whole[i + j..] == MergeFrom(leftArr, rightArr, i, j)
    ensures HoldsStart(a[..], left, k, whole)
    ensures UnchangedOutside(old(a[..]), a[..], left, k)
  {
    i, j, k := 0, 0, left;
    while i < |leftArr| && j < |rightArr|
      invariant 0 <= i <= |leftArr| && 0 <= j <= |rightArr| && k == left + i + j
      invariant whole[i + j..] == MergeFrom(leftArr, rightArr, i, j)
      invariant HoldsStart(a[..], left, k, whole)
      invariant UnchangedOutside(old(a[..]), a[..], left, k)
    {
      ghost var s := a[..];
      if LessEq(leftArr[i], rightArr[j]) {
        MergeStepLeft(leftArr, rightArr, i, j, whole);
        a[k] := leftArr[i];
        WriteNext(old(a[..]), s, a[..], left, k, whole);
        i := i + 1;
      } else {
        MergeStepRight(leftArr, rightArr, i, j, whole);
        a[k] := rightArr[j];
        WriteNext(old(a[..]), s, a[..], left, k, whole);
        j := j + 1;
      }
      k := k + 1;
    }
  }

  /**
   * One of the last two loops of `merge`, `while (i < run.size()) arr[k++] =
   * run[i++];`: copy what is left of `run` to `a[k..end)`. What is left of
   * `run` goes to `a[k..end)` in order, nothing else changes, and the
   * cursor ends at `end`.
   */
  method Drain(a: array<Employee>, run: seq<Employee>, from: int, k: int) returns (end: int)
    requires 0 <= from <= |run| && 0 <= k && k + |run| - from <= a.Length
    modifies a
    ensures end == k + |run| - from
    ensures HoldsStart(a[..], k, end, run[from..])
    ensures UnchangedOutside(old(a[..]), a[..], k, end)
  {
    var i;
    i, end := from, k;
    while i < |run|
      invariant from <= i <= |run| && end == k + i - from
      invariant HoldsStart(a[..], k, end, run[from..])
      invariant UnchangedOutside(old(a[..]), a[..], k, end)
    {
      a[end] := run[i];
      i, end := i + 1, end + 1;
    }
  }

  /**
   * `mergeSort(arr, left, right)`: sort the inclusive range `a[left..right]`
   * by sorting its halves and merging them. A range with `left >= right`,
   * such as the call `(0, -1)` made for an empty vector, is left alone.
   */
  method MergeSort(a: array<Employee>, left: int, right: int)
    requires left < right ==> 0 <= left && right < a.Length
    modifies a
    ensures 0 <= left <= right < a.Length ==> Sorted(a[left..right + 1])
    ensures multiset(a[..]) == old(multiset(a[..]))
    ensures UnchangedOutside(old(a[..]), a[..], left, right + 1)
    decreases right - left
  {
    if left >= right {
      return;
    }
    var mid := left + (right - left) / 2;
    ghost var s0 := a[..];
    MergeSort(a, left, mid);
    ghost var s1 := a[..];
    MergeSort(a, mid + 1, right);
    ghost var s2 := a[..];
    Merge(a, left, mid, right);
    HalvesMergedSorted(s1, s2, a[..], left, mid, right);
    MergeIsPermutation(s2[left..mid + 1], s2[mid + 1..right + 1]);
    MergePermutes(s2, a[..], left, mid, right);
  }

  /**
   * The sortedness step of `mergeSort`: `s1` is the array once the left half
   * `[left..mid]` is sorted, `s2` once the right half `[mid+1..right]` is
   * sorted too, and `s3` after the two are merged.
   */
  lemma HalvesMergedSorted(s1: seq<Employee>, s2: seq<Employee>, s3: seq<Employee>, left: int, mid: int, right: int)
    requires 0 <= left <= mid < right < |s1| == |s2| == |s3|
    requires Sorted(s1[left..mid + 1]) && Sorted(s2[mid + 1..right + 1])
    requires UnchangedOutside(s1, s2, mid + 1, right + 1)
    requires s3[left..right + 1] == MergeFrom(s2[left..mid + 1], s2[mid + 1..right + 1], 0, 0)
    ensures Sorted(s3[left..right + 1])
  {
    assert s2[left..mid + 1] == s1[left..mid + 1];
    MergeSorted(s2[left..mid + 1], s2[mid + 1..right + 1], 0, 0);
  }

  /**
   * `std::sort`: only its contract is modelled, the result is the sorted
   * permutation of the input. The body writes `SortSeq` of the contents back
   * and does not stand for the library's algorithm.
   */
  method LibrarySort(a: array<Employee>)
    modifies a
    ensures Sorted(a[..])
    ensures multiset(a[..]) == old(multiset(a[..]))
  {
    var sorted := SortSeq(a[..]);
    assert |sorted| == |multiset(sorted)| == a.Length;
    forall k | 0 <= k < a.Length {
      a[k] := sorted[k];
    }
    assert a[..] == sorted;
  }
}
